=== FILE: README.md ===
# Capibara Media home page: content normaliser and card links

A Dafny model of the part of the web front end that turns raw content
records into display tiles. The home page fetches four lists: video episodes,
podcast episodes, newsletter issues and articles. It drops the `null` and
`undefined` entries of each list. It then maps every surviving record to a
`ContentTile` by a fixed per-kind rule that sets the title, date, summary,
tag, accent, lock flag, slug and type. The content card turns a tile into a link
target, decides whether the card is wrapped in a link, and decides whether
it shows the subscription badge.

Modules:

- `Nullish` (`nullish.dfy`) covers JavaScript's nullish values. It has
  `Option` (null and undefined are both `None`), the `??` operator
  (`Coalesce`), the truthiness of an optional string (`Truthy`), and
  `filter((x) => x != null)` (`FilterNonNull`, plus a left-to-right pass
  `FilterNonNullPass`).
- `ContentCard` (`content_card.dfy`) models `apps/web/src/components/ContentCard.tsx`.
  It has the tile, the accent table and `getKindAccent`, the empty-input
  branch of `formatDate`, `getHref`, the link-wrapping condition and the badge.
- `HomePage` (`home_page.dfy`) models `apps/web/src/app/page.tsx`. It has the
  raw record, the per-field rules the page writes inline (pulled out as
  `TileTitle`, `TileSummary`, `TileTag`, `TileAccent`, `TileLocked`), the
  tile builder `ToTile`, the four sections and the conditional article
  section.

Two JavaScript checks (`??` and truthiness) are kept apart throughout. `??` keeps a present empty
string: an empty `title`, `synopsis` or `excerpt` wins over the later
alternatives. The truthiness test in `getHref` and at the link condition
treats an empty slug as missing. So a record with slug `""` yields a tile
whose `slug` is `""` but whose card is not wrapped in a link.

Points where the code's behaviour is easy to misread:

- There is no viewer or entitlement input. `locked` is only the record's
  `isPremium` flag. When the flag is missing, it defaults to `true` for
  newsletters and `false` otherwise.
- The accent is not a function of the kind alone. A video takes the
  accent of its show's kind (see `VideoAccentFollowsShowKind`). An article
  uses a gradient that is not in the accent table.
- The show kind is read through an unchecked type cast. A kind string
  that is not one of the table's three keys (and not an inherited object
  property name) gives an `undefined` accent. The model therefore keeps
  `accent` as an `Option`.
- `getHref` gives `"#"` when the slug is missing, when it is empty, or
  when the type is missing. It is not limited to the missing-slug case.

## Model

| member | source | states |
|---|---|---|
| Nullish.Coalesce | apps/web/src/app/page.tsx:83-88 | `a ?? b`: the left operand whenever it is present (even when empty or `false`), the right one only when it is null/undefined; used at lines 76, 83, 85, 88 and the matching lines of the other three maps |
| Nullish.Truthy | apps/web/src/components/ContentCard.tsx:34 | computes JavaScript truthiness of an optional string: false when absent or empty; the test behind `!iso` (line 22), `!entry.slug` (line 34) and `entry.slug &&` (line 62) |
| ContentCard.Kind.Name | apps/web/src/components/ContentCard.tsx:12 | computes the `type` string of each kind: `video`, `podcast`, `newsletter`, `article` (page.tsx lines 90, 125, 154, 195); `getHref` puts it between the slashes at line 36 |
| ContentCard.IsLinked | apps/web/src/components/ContentCard.tsx:62 | computes the link-wrapping condition `entry.slug && entry.type`: a non-empty slug and a present type |
| ContentCard.RoutePrefix | apps/web/src/components/ContentCard.tsx:35-36 | the part of a link before the slug is at least two characters long and starts and ends with `/` (`/articoli/` for articles, `/<type>/` otherwise) |
| HomePage.SummaryPriority | apps/web/src/app/page.tsx:85 | each kind's list of body-text fields has one or two entries, most preferred first: video synopsis, summary; podcast summary, synopsis; newsletter excerpt, summary; article excerpt (lines 85, 120, 149, 190) |
| HomePage.FieldOf | apps/web/src/app/page.tsx:85 | computes the record's `synopsis`, `summary` or `excerpt` field by name, as the summary chains read them (lines 85, 120, 149, 190) |
| HomePage.TileTitle | apps/web/src/app/page.tsx:83 | computes `title ?? "Untitled"` (also lines 118, 147, 188) |
| HomePage.TileSummary | apps/web/src/app/page.tsx:85 | computes the kind's summary `??` chain as written at lines 85, 120, 149 and 190 |
| HomePage.TileTag | apps/web/src/app/page.tsx:86 | computes the fixed tag of each kind: `Video`, `Podcast`, `Newsletter`, `Articolo` (lines 86, 121, 150, 191) |
| HomePage.EffectiveShowKind | apps/web/src/app/page.tsx:75-76 | computes `show?.data?.attributes?.kind ?? "video"` |
| HomePage.TileAccent | apps/web/src/app/page.tsx:74-77 | computes the accent: `getKindAccent` of the effective show kind for videos, `getKindAccent("podcast")` and `getKindAccent("newsletter")`, and the literal article gradient (lines 77, 122, 151, 192) |
| HomePage.DefaultLocked | apps/web/src/app/page.tsx:152 | computes the lock default for a missing `isPremium`: `true` for newsletters, `false` for the other kinds (lines 88, 123, 152, 193) |
| HomePage.TileLocked | apps/web/src/app/page.tsx:88 | computes `isPremium ?? default` with the kind's default (lines 88, 123, 152, 193) |
| Nullish.FilterNonNull | apps/web/src/app/page.tsx:21-24 | the filtered list holds a value exactly when the input holds it as a non-null entry, and is never longer than the input |
| Nullish.FilterEmptyIffAllNull | apps/web/src/app/page.tsx:21-24 | nothing survives the filter exactly when every fetched entry is null/undefined |
| Nullish.FilterAppend | apps/web/src/app/page.tsx:21-24 | filtering a concatenation is the concatenation of the filtered parts, so no entry crosses another |
| Nullish.FilterAt | apps/web/src/app/page.tsx:21-24 | a non-null entry at index i appears in the output at the position equal to the number of non-null entries before it |
| Nullish.FilterKeepsOrder | apps/web/src/app/page.tsx:21-24 | of two non-null entries, the earlier one gets the earlier output position (relative order is kept) |
| Nullish.FilterOfPresent | apps/web/src/app/page.tsx:21-24 | a list with no null entries comes through the filter unchanged |
| Nullish.FilterNonNullPass | apps/web/src/app/page.tsx:21 | a single left-to-right pass keeping the non-null entries computes the same list as the filter |
| Nullish.CoalesceKeepsFalsyString | apps/web/src/app/page.tsx:83 | `??` returns a present empty string rather than its fallback |
| ContentCard.GetKindAccent | apps/web/src/components/ContentCard.tsx:30 | the lookup is defined exactly on `video`, `podcast`, `newsletter` and returns that key's table entry; any other key gives undefined (inherited property names aside, see Left out) |
| ContentCard.AccentsDistinct | apps/web/src/components/ContentCard.tsx:15-19 | the three table entries are pairwise distinct: equal accents mean equal keys |
| ContentCard.FormatDate | apps/web/src/components/ContentCard.tsx:21-22 | absent, null or empty input gives `""`; any other input is handed to the locale formatter |
| ContentCard.Href | apps/web/src/components/ContentCard.tsx:33-37 | the href is `"#"` exactly when the slug is missing or empty or the type is missing; otherwise it starts with `/` and ends with the slug |
| ContentCard.HrefIsPrefixPlusSlug | apps/web/src/components/ContentCard.tsx:35-36 | a real href is `/articoli/` plus the slug for articles and `/<type>/` plus the slug for every other type |
| ContentCard.HrefInjective | apps/web/src/components/ContentCard.tsx:33-37 | two cards with the same real href have the same type and the same slug |
| ContentCard.RenderCard | apps/web/src/components/ContentCard.tsx:39-72 | the card is wrapped in a link to the href exactly when the href is not `"#"`; the badge shows exactly when `locked` is `true`; tag, title, summary, date and accent are passed through |
| ContentCard.LinkedIffRealHref | apps/web/src/components/ContentCard.tsx:62-70 | the link condition (`slug && type`) agrees with `getHref`'s guard: linked exactly when the href is not `"#"` |
| HomePage.ShowKind | apps/web/src/app/page.tsx:74-76 | the show kind is present exactly when the show, its data, its attributes and its kind are all present, and is then the attributes' `kind` |
| HomePage.ToTile | apps/web/src/app/page.tsx:82-91 | every tile carries its section's type, the record's slug unchanged, a defined lock flag, and the formatted publish date |
| HomePage.TitleResolution | apps/web/src/app/page.tsx:83 | the title is the record's title whenever present (also when empty), and `Untitled` when it is absent; the same rule appears at lines 118, 147 and 188 |
| HomePage.FirstPresent | apps/web/src/app/page.tsx:85 | with no listed field present the result is `""`; a non-empty result is the value of one of the listed fields |
| HomePage.FirstPresentWins | apps/web/src/app/page.tsx:85 | the first present field in the list decides, even when its value is empty |
| HomePage.FirstPresentReadsOnlyListed | apps/web/src/app/page.tsx:190 | fields outside the list do not affect the result |
| HomePage.SummaryFollowsPriority | apps/web/src/app/page.tsx:85 | each kind's `??` chain equals the first present field of its priority list: video synopsis then summary, podcast summary then synopsis, newsletter excerpt then summary, article excerpt (lines 85, 120, 149, 190) |
| HomePage.SummaryFirstPresentWins | apps/web/src/app/page.tsx:120 | the first present field in the kind's priority order is the summary, even when empty |
| HomePage.SummaryDefault | apps/web/src/app/page.tsx:149 | with none of the kind's fields present the summary is `""` |
| HomePage.SummaryReadsOnlyPriorityFields | apps/web/src/app/page.tsx:190 | records that agree on the kind's priority fields get the same summary (an article ignores `summary` and `synopsis`) |
| HomePage.LockResolution | apps/web/src/app/page.tsx:152 | an explicit `isPremium` always becomes `locked`; without it only a newsletter is locked (lines 88, 123, 152, 193) |
| HomePage.BadgeIffPremium | apps/web/src/components/ContentCard.tsx:47 | a built tile shows the subscription badge exactly when `isPremium` is `true`, or missing on a newsletter |
| HomePage.TagTypeSlug | apps/web/src/app/page.tsx:86-90 | the type is the section's kind, the slug is copied unchanged, and the four tags (`Video`, `Podcast`, `Newsletter`, `Articolo`) are pairwise distinct |
| HomePage.TileLink | apps/web/src/app/page.tsx:89-90 | a built tile links somewhere exactly when the record's slug is present and non-empty, and then to its kind's route for that slug |
| HomePage.AccentResolution | apps/web/src/app/page.tsx:74-77 | a video takes its show kind's accent (the video entry when the kind is missing, undefined for a kind outside the table); podcasts and newsletters their own entry; the article gradient equals no table entry (line 192) |
| HomePage.VideoAccentFollowsShowKind | apps/web/src/app/page.tsx:74-77 | for video records whose effective show kind (`show?.data?.attributes?.kind ?? "video"`) is a table key, two get the same accent exactly when their effective show kinds are equal |
| HomePage.Section | apps/web/src/app/page.tsx:73-94 | a section has one tile per non-null record, and each carries the section's type and tag |
| HomePage.BuildHome | apps/web/src/app/page.tsx:165-201 | each section is its list's section (one tile per non-null record, in order, built for that section's kind); the article section is emitted exactly when its filtered list is non-empty, and is then never empty |
| HomePage.ArticlesShownIffAnyPresent | apps/web/src/app/page.tsx:165 | the article section is emitted exactly when some fetched article is non-null; the other three sections are always emitted |
| HomePage.SectionKeepsOrder | apps/web/src/app/page.tsx:184-198 | the tile of record i comes at the position equal to the number of non-null records before it, before the tile of any later record |
| HomePage.SectionOfPresent | apps/web/src/app/page.tsx:114-128 | without null entries a section has exactly one tile per record, in fetch order |
| HomePage.PodcastExample | apps/web/src/app/page.tsx:117-126 | a podcast with title `Ep 12`, only a synopsis `A talk` and no flag gives that title and summary, unlocked, tagged `Podcast` |
| HomePage.NewsletterExample | apps/web/src/app/page.tsx:146-155 | a newsletter with only a title gives an empty summary and date, and is locked |

## Left out

- The fetch functions (`getLatestVideoEpisodes(3)`, `getLatestPodcastEpisodes(4)`, `getPremiumNewsletterIssues(3)`, `getLatestArticles(3)`) and their `Promise.all` are not modelled. They live in `@/lib/api` and do asynchronous I/O, so the model takes their results as inputs of type `seq<Option<RawRecord>>` and does not check the requested limits. `page.tsx` has no `catch` around `Promise.all` (page.tsx:13-18), so a rejected fetch makes `Home` throw; it is not turned into an empty list. What `@/lib/api` does on failure is outside this model.
- The non-empty branch of `formatDate` uses JavaScript `Date` and Italian locale formatting. It is the `render` parameter.
- JSX structure, CSS class strings (other than accents, which are kept as opaque strings), React `key`s and Next.js `Link` rendering are not modelled.
- `apps/web/src/components/MainLayout.tsx` is not part of this model. It holds the navigation chrome, the active-link highlight and the session display.
- `apps/cms/src/index.ts` is not part of this model. It holds lifecycle hooks that only log.
- `apps/web/src/app/podcast/[slug]/page.tsx` is not part of this model. It does a single-record lookup with a not-found response and rendering.
- Any viewer- or entitlement-based lock decision is not modelled, because the code has none.
- ContentCard.GetKindAccent: the TypeScript `Record` type promises a string for every typed key. The model follows the runtime instead: a string outside the table gives `undefined`. Key names inherited from `Object.prototype` (`constructor`, `toString`, `__proto__`, ...) are not modelled: at runtime they return an inherited function or object, and the model returns `None` for them.

=== FILE: content_card.dfy ===
/** The content card of the web front end: the display tile it receives, the
    accent table, date formatting, where the card links to, and whether it
    is wrapped in a link and carries the subscription badge. */
module ContentCard {
  import opened Nullish

  /** The values of a tile's `type` field, one per content kind. */
  datatype Kind = Video | Podcast | Newsletter | Article {
    /** The string literal the front end uses for this kind. */
    function Name(): string {
      match this
      case Video => "video"
      case Podcast => "podcast"
      case Newsletter => "newsletter"
      case Article => "article"
    }
  }

  /** A display tile. `locked`, `slug` and `kind` (the tile's `type`) are
      optional; `accent` is absent when the accent lookup missed. */
  datatype Tile = Tile(
    title: string,
    date: string,
    summary: string,
    tag: string,
    accent: Option<string>,
    locked: Option<bool>,
    slug: Option<string>,
    kind: Option<Kind>)

  const VideoAccent: string := "from-purple-500/30 via-fuchsia-500/20 to-amber-400/30"
  const PodcastAccent: string := "from-teal-500/30 via-sky-500/20 to-blue-900/40"
  const NewsletterAccent: string := "from-yellow-500/20 via-orange-600/20 to-red-700/30"

  /** The accent table, keyed by a show's kind. */
  const KindAccentTable: map<string, string> :=
    map["video" := VideoAccent, "podcast" := PodcastAccent, "newsletter" := NewsletterAccent]

  /** `getKindAccent`: a lookup in the table; a key outside it yields `undefined`. */
  function GetKindAccent(kind: string): (r: Option<string>)
    ensures r.Some? <==> kind == "video" || kind == "podcast" || kind == "newsletter"
    ensures kind == "video" ==> r == Some(VideoAccent)
    ensures kind == "podcast" ==> r == Some(PodcastAccent)
    ensures kind == "newsletter" ==> r == Some(NewsletterAccent)
  {
    if kind in KindAccentTable then Some(KindAccentTable[kind]) else None
  }

  /** The three table entries are pairwise distinct, so the accent tells the
      show kinds apart. */
  lemma AccentsDistinct(k1: string, k2: string)
    requires GetKindAccent(k1).Some? && GetKindAccent(k2).Some?
    ensures GetKindAccent(k1) == GetKindAccent(k2) <==> k1 == k2
  {
  }

  /** `formatDate`: absent, null and empty input give the empty string; any
      other input is handed to the locale formatter `render`. */
  function FormatDate(iso: Option<string>, render: string -> string): (r: string)
    ensures !Truthy(iso) ==> r == ""
    ensures Truthy(iso) ==> r == render(iso.value)
  {
    if !Truthy(iso) then "" else render(iso.value)
  }

  /** `getHref`: `"#"` unless the tile has a non-empty slug and a type;
      articles route under `/articoli/`, every other kind under its own name. */
  function Href(t: Tile): (r: string)
    ensures r == "#" <==> !Truthy(t.slug) || t.kind.None?
    ensures r != "#" ==> 0 < |r| && r[0] == '/'
    ensures r != "#" ==> |t.slug.value| < |r| && r[|r| - |t.slug.value|..] == t.slug.value
  {
    if !Truthy(t.slug) || t.kind.None? then "#"
    else if t.kind.value == Article then "/articoli/" + t.slug.value
    else "/" + t.kind.value.Name() + "/" + t.slug.value
  }

  /** The part of a link in front of the slug, for each kind. */
  function RoutePrefix(k: Kind): (p: string)
    ensures 2 <= |p| && p[0] == '/' && p[|p| - 1] == '/'
  {
    if k == Article then "/articoli/" else "/" + k.Name() + "/"
  }

  /** A link is its kind's route prefix followed by the slug. */
  lemma HrefIsPrefixPlusSlug(t: Tile)
    requires Href(t) != "#"
    ensures Href(t) == RoutePrefix(t.kind.value) + t.slug.value
  {
  }

  /** Links encode kind and slug without ambiguity: two linked tiles with the
      same href have the same type and the same slug. */
  lemma HrefInjective(t1: Tile, t2: Tile)
    requires Href(t1) != "#" && Href(t1) == Href(t2)
    ensures t1.kind == t2.kind && t1.slug == t2.slug
  {
    var k1, k2 := t1.kind.value, t2.kind.value;
    var p1, p2 := RoutePrefix(k1), RoutePrefix(k2);
    HrefIsPrefixPlusSlug(t1);
    HrefIsPrefixPlusSlug(t2);
    assert (p1 + t1.slug.value)[1] == p1[1];
    assert (p2 + t2.slug.value)[1] == p2[1];
    assert k1 == k2 by {
      assert RoutePrefix(Video)[1] == 'v';
      assert RoutePrefix(Podcast)[1] == 'p';
      assert RoutePrefix(Newsletter)[1] == 'n';
      assert RoutePrefix(Article)[1] == 'a';
    }
    assert t1.slug.value == (p1 + t1.slug.value)[|p1|..];
    assert t2.slug.value == (p2 + t2.slug.value)[|p2|..];
  }

  /** The condition under which the card is wrapped in a link: a truthy slug
      and a truthy type. */
  predicate IsLinked(t: Tile) {
    Truthy(t.slug) && t.kind.Some?
  }

  /** The card content that does not depend on the link. */
  datatype CardBody = CardBody(
    accent: Option<string>,
    tag: string,
    badge: bool,
    title: string,
    summary: string,
    date: string)

  /** What the card renders: the body, either inside a link to `href` or bare. */
  datatype Card = Linked(href: string, body: CardBody) | Plain(body: CardBody)

  /** The content card for a tile. */
  function RenderCard(t: Tile): (c: Card)
    ensures c.Linked? <==> Href(t) != "#"
    ensures c.Linked? ==> c.href == Href(t) && c.href[0] == '/'
    ensures c.body.badge <==> t.locked == Some(true)
    ensures c.body.title == t.title && c.body.summary == t.summary && c.body.date == t.date
    ensures c.body.tag == t.tag && c.body.accent == t.accent
  {
    var href := Href(t);
    var body := CardBody(t.accent, t.tag, t.locked == Some(true), t.title, t.summary, t.date);
    if IsLinked(t) then Linked(href, body) else Plain(body)
  }

  /** The link condition and `getHref`'s guard agree: a card is linked
      exactly when its href is a real path. */
  lemma LinkedIffRealHref(t: Tile)
    ensures IsLinked(t) <==> Href(t) != "#"
  {
  }
}

=== FILE: home_page.dfy ===
/** The home page: the four fetched lists of raw records, their null entries
    removed, each surviving record turned into a display tile by a fixed
    per-kind rule, and the four sections assembled. */
module HomePage {
  import opened Nullish
  import opened ContentCard

  /** `show.data.attributes` of a video episode, as far as the page reads it. */
  datatype ShowAttributes = ShowAttributes(kind: Option<string>)
  datatype ShowData = ShowData(attributes: Option<ShowAttributes>)
  datatype ShowRelation = ShowRelation(data: Option<ShowData>)

  /** A raw record as the content API returns it. Every field may be missing;
      which ones are read depends on the kind of list it came from. */
  datatype RawRecord = RawRecord(
    title: Option<string>,
    publishDate: Option<string>,
    synopsis: Option<string>,
    summary: Option<string>,
    excerpt: Option<string>,
    isPremium: Option<bool>,
    slug: Option<string>,
    show: Option<ShowRelation>)

  /** `episode.show?.data?.attributes?.kind`: absent as soon as any link of
      the chain is. */
  function ShowKind(show: Option<ShowRelation>): (r: Option<string>)
    ensures r.Some? <==>
      show.Some? && show.value.data.Some? && show.value.data.value.attributes.Some?
      && show.value.data.value.attributes.value.kind.Some?
    ensures r.Some? ==> r == show.value.data.value.attributes.value.kind
  {
    match show
    case None => None
    case Some(rel) =>
      match rel.data
      case None => None
      case Some(d) =>
        match d.attributes
        case None => None
        case Some(a) => a.kind
  }

  /** The accent written directly on article tiles; it is not in the table. */
  const ArticleAccent: string := "from-blue-500/30 via-indigo-500/20 to-purple-900/40"

  /** The title: the record's own whenever present, even when empty. */
  function TileTitle(raw: RawRecord): string {
    Coalesce(raw.title, "Untitled")
  }

  /** The summary, as the four `??` chains of the page write it. */
  function TileSummary(k: Kind, raw: RawRecord): string {
    match k
    case Video => Coalesce(raw.synopsis, Coalesce(raw.summary, ""))
    case Podcast => Coalesce(raw.summary, Coalesce(raw.synopsis, ""))
    case Newsletter => Coalesce(raw.excerpt, Coalesce(raw.summary, ""))
    case Article => Coalesce(raw.excerpt, "")
  }

  /** The section label shown on the tile. */
  function TileTag(k: Kind): string {
    match k
    case Video => "Video"
    case Podcast => "Podcast"
    case Newsletter => "Newsletter"
    case Article => "Articolo"
  }

  /** The show kind a video's accent is looked up by: `"video"` when missing. */
  function EffectiveShowKind(raw: RawRecord): string {
    Coalesce(ShowKind(raw.show), "video")
  }

  /** The accent: a video takes its show's kind (`"video"` when missing),
      podcasts and newsletters their own table entry, articles a fixed
      gradient of their own. */
  function TileAccent(k: Kind, raw: RawRecord): Option<string> {
    match k
    case Video => GetKindAccent(EffectiveShowKind(raw))
    case Podcast => GetKindAccent("podcast")
    case Newsletter => GetKindAccent("newsletter")
    case Article => Some(ArticleAccent)
  }

  /** Whether a record without an `isPremium` flag is shown as locked. */
  function DefaultLocked(k: Kind): bool {
    match k
    case Newsletter => true
    case _ => false
  }

  /** The lock flag: the record's explicit flag, else the kind's default. */
  function TileLocked(k: Kind, raw: RawRecord): bool {
    Coalesce(raw.isPremium, DefaultLocked(k))
  }

  /** The tile the page builds for a record fetched as kind `k`; `render` is
      the locale date formatter. */
  function ToTile(k: Kind, raw: RawRecord, render: string -> string): (t: Tile)
    ensures t.kind == Some(k) && t.slug == raw.slug && t.locked.Some?
    ensures t.date == FormatDate(raw.publishDate, render)
  {
    Tile(
      title := TileTitle(raw),
      date := FormatDate(raw.publishDate, render),
      summary := TileSummary(k, raw),
      tag := TileTag(k),
      accent := TileAccent(k, raw),
      locked := Some(TileLocked(k, raw)),
      slug := raw.slug,
      kind := Some(k))
  }

  // Title

  /** The title is the record's whenever present, even the empty string,
      and the placeholder only when absent. */
  lemma TitleResolution(k: Kind, raw: RawRecord, render: string -> string)
    ensures raw.title.Some? ==> ToTile(k, raw, render).title == raw.title.value
    ensures raw.title.None? ==> ToTile(k, raw, render).title == "Untitled"
  {
  }

  // Summary

  /** The body-text fields a summary may come from. */
  datatype BodyField = Synopsis | Summary | Excerpt

  function FieldOf(raw: RawRecord, f: BodyField): Option<string> {
    match f
    case Synopsis => raw.synopsis
    case Summary => raw.summary
    case Excerpt => raw.excerpt
  }

  /** The per-kind priority of body-text fields, most preferred first. */
  function SummaryPriority(k: Kind): (fs: seq<BodyField>)
    ensures 1 <= |fs| <= 2
  {
    match k
    case Video => [Synopsis, Summary]
    case Podcast => [Summary, Synopsis]
    case Newsletter => [Excerpt, Summary]
    case Article => [Excerpt]
  }

  /** The value of the first present field of `fs`, or `""` when none is. */
  function FirstPresent(raw: RawRecord, fs: seq<BodyField>): (r: string)
    ensures (forall i :: 0 <= i < |fs| ==> FieldOf(raw, fs[i]).None?) ==> r == ""
    ensures r != "" ==> exists i :: 0 <= i < |fs| && FieldOf(raw, fs[i]) == Some(r)
  {
    if fs == [] then ""
    else match FieldOf(raw, fs[0])
      case Some(v) => v
      case None => FirstPresent(raw, fs[1..])
  }

  /** A present field wins over every later one, even when it is empty. */
  lemma {:induction false} FirstPresentWins(raw: RawRecord, fs: seq<BodyField>, i: nat)
    requires i < |fs| && FieldOf(raw, fs[i]).Some?
    requires forall j :: 0 <= j < i ==> FieldOf(raw, fs[j]).None?
    ensures FirstPresent(raw, fs) == FieldOf(raw, fs[i]).value
  {
    if i > 0 {
      assert FieldOf(raw, fs[0]).None?;
      assert forall j :: 0 <= j < i - 1 ==> fs[1..][j] == fs[j + 1];
      FirstPresentWins(raw, fs[1..], i - 1);
    }
  }

  /** Fields outside the list do not matter. */
  lemma {:induction false} FirstPresentReadsOnlyListed(r1: RawRecord, r2: RawRecord, fs: seq<BodyField>)
    requires forall i :: 0 <= i < |fs| ==> FieldOf(r1, fs[i]) == FieldOf(r2, fs[i])
    ensures FirstPresent(r1, fs) == FirstPresent(r2, fs)
  {
    if fs != [] {
      assert FieldOf(r1, fs[0]) == FieldOf(r2, fs[0]);
      FirstPresentReadsOnlyListed(r1, r2, fs[1..]);
    }
  }

  /** The page's `??` chains follow the per-kind priority list exactly. */
  lemma SummaryFollowsPriority(k: Kind, raw: RawRecord, render: string -> string)
    ensures ToTile(k, raw, render).summary == FirstPresent(raw, SummaryPriority(k))
  {
    var fs := SummaryPriority(k);
    match k
    case Article =>
      assert fs[1..] == [];
    case _ =>
      assert fs[1..][1..] == [];
  }

  /** The first present field in the kind's priority order becomes the
      summary, even when it is empty. */
  lemma SummaryFirstPresentWins(k: Kind, raw: RawRecord, render: string -> string, i: nat)
    requires i < |SummaryPriority(k)| && FieldOf(raw, SummaryPriority(k)[i]).Some?
    requires forall j :: 0 <= j < i ==> FieldOf(raw, SummaryPriority(k)[j]).None?
    ensures ToTile(k, raw, render).summary == FieldOf(raw, SummaryPriority(k)[i]).value
  {
    SummaryFollowsPriority(k, raw, render);
    FirstPresentWins(raw, SummaryPriority(k), i);
  }

  /** With none of the kind's fields present the summary is empty. */
  lemma SummaryDefault(k: Kind, raw: RawRecord, render: string -> string)
    requires forall i :: 0 <= i < |SummaryPriority(k)| ==> FieldOf(raw, SummaryPriority(k)[i]).None?
    ensures ToTile(k, raw, render).summary == ""
  {
    SummaryFollowsPriority(k, raw, render);
  }

  /** An article's summary ignores `summary` and `synopsis`; records that
      agree on the kind's listed fields get the same summary. */
  lemma SummaryReadsOnlyPriorityFields(k: Kind, r1: RawRecord, r2: RawRecord, render: string -> string)
    requires forall i :: 0 <= i < |SummaryPriority(k)| ==>
      FieldOf(r1, SummaryPriority(k)[i]) == FieldOf(r2, SummaryPriority(k)[i])
    ensures ToTile(k, r1, render).summary == ToTile(k, r2, render).summary
  {
    SummaryFollowsPriority(k, r1, render);
    SummaryFollowsPriority(k, r2, render);
    FirstPresentReadsOnlyListed(r1, r2, SummaryPriority(k));
  }

  // Lock

  /** An explicit flag always decides; without one only newsletters are
      locked. */
  lemma LockResolution(k: Kind, raw: RawRecord, render: string -> string)
    ensures raw.isPremium.Some? ==> ToTile(k, raw, render).locked == raw.isPremium
    ensures raw.isPremium.None? ==> (ToTile(k, raw, render).locked == Some(true) <==> k == Newsletter)
  {
  }

  /** The subscription badge shows exactly when the flag is set, or when it
      is missing on a newsletter. */
  lemma BadgeIffPremium(k: Kind, raw: RawRecord, render: string -> string)
    ensures RenderCard(ToTile(k, raw, render)).body.badge <==>
      raw.isPremium == Some(true) || (raw.isPremium.None? && k == Newsletter)
  {
  }

  // Tag, type, slug and link

  /** Tag and type are fixed per kind, the tags are pairwise distinct, and
      the slug is copied unchanged. */
  lemma TagTypeSlug(k1: Kind, k2: Kind, raw: RawRecord, render: string -> string)
    ensures ToTile(k1, raw, render).kind == Some(k1)
    ensures ToTile(k1, raw, render).slug == raw.slug
    ensures ToTile(k1, raw, render).tag == ToTile(k2, raw, render).tag <==> k1 == k2
  {
  }

  /** A tile links to its kind's route for the record's slug exactly when the
      slug is present and non-empty; a present empty slug is kept on the tile
      but gives `"#"`. */
  lemma TileLink(k: Kind, raw: RawRecord, render: string -> string)
    ensures RenderCard(ToTile(k, raw, render)).Linked? <==> Truthy(raw.slug)
    ensures Truthy(raw.slug) ==>
      RenderCard(ToTile(k, raw, render)).href == RoutePrefix(k) + raw.slug.value
  {
    var t := ToTile(k, raw, render);
    if Truthy(raw.slug) {
      HrefIsPrefixPlusSlug(t);
    }
  }

  // Accent

  /** A video takes the accent of its show's kind, the video entry when the
      show or its kind is missing, and none for a kind outside the table;
      podcasts and newsletters always have their own entry; the article accent
      is none of the table's. */
  lemma AccentResolution(raw: RawRecord, render: string -> string)
    ensures ShowKind(raw.show).None? ==> ToTile(Video, raw, render).accent == Some(VideoAccent)
    ensures ShowKind(raw.show).Some? ==>
      ToTile(Video, raw, render).accent == GetKindAccent(ShowKind(raw.show).value)
    ensures ToTile(Podcast, raw, render).accent == Some(PodcastAccent)
    ensures ToTile(Newsletter, raw, render).accent == Some(NewsletterAccent)
    ensures ToTile(Article, raw, render).accent == Some(ArticleAccent)
    ensures forall key :: GetKindAccent(key) != Some(ArticleAccent)
  {
  }

  /** The accent is not a function of the kind alone: among video records
      whose effective show kind is a table key, two get the same accent
      exactly when their effective show kinds agree. */
  lemma VideoAccentFollowsShowKind(r1: RawRecord, r2: RawRecord, render: string -> string)
    requires GetKindAccent(EffectiveShowKind(r1)).Some? && GetKindAccent(EffectiveShowKind(r2)).Some?
    ensures ToTile(Video, r1, render).accent == ToTile(Video, r2, render).accent
      <==> EffectiveShowKind(r1) == EffectiveShowKind(r2)
  {
    AccentsDistinct(EffectiveShowKind(r1), EffectiveShowKind(r2));
  }

  // Sections

  /** One section: every non-null record of the list, in order, as a tile. */
  function Section(k: Kind, raws: seq<Option<RawRecord>>, render: string -> string): (ts: seq<Tile>)
    ensures |ts| == |FilterNonNull(raws)| <= |raws|
    ensures forall i :: 0 <= i < |ts| ==> ts[i].kind == Some(k) && ts[i].tag == TileTag(k)
  {
    var present := FilterNonNull(raws);
    seq(|present|, i requires 0 <= i < |present| => ToTile(k, present[i], render))
  }

  /** The rendered home page: the video, podcast and newsletter sections are
      always there; the article section only when it would have a tile. */
  datatype Home = Home(
    videos: seq<Tile>,
    podcasts: seq<Tile>,
    newsletters: seq<Tile>,
    articles: Option<seq<Tile>>)

  function BuildHome(
    videos: seq<Option<RawRecord>>,
    podcasts: seq<Option<RawRecord>>,
    newsletters: seq<Option<RawRecord>>,
    articles: seq<Option<RawRecord>>,
    render: string -> string): (h: Home)
    ensures h.videos == Section(Video, videos, render)
    ensures h.podcasts == Section(Podcast, podcasts, render)
    ensures h.newsletters == Section(Newsletter, newsletters, render)
    ensures h.articles.Some? ==> h.articles.value == Section(Article, articles, render)
    ensures |h.videos| == |FilterNonNull(videos)| && |h.podcasts| == |FilterNonNull(podcasts)|
    ensures |h.newsletters| == |FilterNonNull(newsletters)|
    ensures h.articles.Some? ==> h.articles.value != [] && |h.articles.value| == |FilterNonNull(articles)|
    ensures h.articles.None? ==> FilterNonNull(articles) == []
  {
    var articleTiles := Section(Article, articles, render);
    Home(
      Section(Video, videos, render),
      Section(Podcast, podcasts, render),
      Section(Newsletter, newsletters, render),
      if |articleTiles| > 0 then Some(articleTiles) else None)
  }

  /** The article section is shown exactly when some fetched article is
      non-null. */
  lemma ArticlesShownIffAnyPresent(
    videos: seq<Option<RawRecord>>,
    podcasts: seq<Option<RawRecord>>,
    newsletters: seq<Option<RawRecord>>,
    articles: seq<Option<RawRecord>>,
    render: string -> string)
    ensures BuildHome(videos, podcasts, newsletters, articles, render).articles.Some? <==>
      exists i :: 0 <= i < |articles| && articles[i].Some?
  {
    FilterEmptyIffAllNull(articles);
  }

  /** A section's tile at position `|FilterNonNull(raws[..i])|` is the tile of
      record `i`, and tiles of earlier records come first. */
  lemma SectionKeepsOrder(k: Kind, raws: seq<Option<RawRecord>>, render: string -> string, i: nat, j: nat)
    requires i < j < |raws| && raws[i].Some? && raws[j].Some?
    ensures |FilterNonNull(raws[..i])| < |FilterNonNull(raws[..j])| < |Section(k, raws, render)|
    ensures Section(k, raws, render)[|FilterNonNull(raws[..i])|] == ToTile(k, raws[i].value, render)
    ensures Section(k, raws, render)[|FilterNonNull(raws[..j])|] == ToTile(k, raws[j].value, render)
  {
    FilterKeepsOrder(raws, i, j);
    FilterAt(raws, i);
    FilterAt(raws, j);
  }

  /** Without null entries a section has one tile per record, in order. */
  lemma SectionOfPresent(k: Kind, recs: seq<RawRecord>, render: string -> string)
    ensures var ts := Section(k, seq(|recs|, i requires 0 <= i < |recs| => Some(recs[i])), render);
      |ts| == |recs| && forall i :: 0 <= i < |recs| ==> ts[i] == ToTile(k, recs[i], render)
  {
    FilterOfPresent(recs);
  }

  // Worked examples

  /** A podcast with a title, only a synopsis and no flag. */
  lemma PodcastExample(render: string -> string)
    ensures
      var raw := RawRecord(Some("Ep 12"), None, Some("A talk"), None, None, None, None, None);
      var t := ToTile(Podcast, raw, render);
      t.title == "Ep 12" && t.summary == "A talk" && t.locked == Some(false) && t.tag == "Podcast"
  {
  }

  /** A newsletter with only a title: empty summary, locked by default. */
  lemma NewsletterExample(render: string -> string)
    ensures
      var raw := RawRecord(Some("Insider #3"), None, None, None, None, None, None, None);
      var t := ToTile(Newsletter, raw, render);
      t.summary == "" && t.locked == Some(true) && t.date == ""
  {
  }
}

=== FILE: nullish.dfy ===
/** JavaScript's nullish values as the home page meets them: a field or a list
    entry that may be `null` or `undefined`, the `??` operator, the truthiness
    test on an optional string, and `list.filter((x) => x != null)`. */
module Nullish {

  /** A value that may be `null` or `undefined`; JavaScript's loose `!= null`
      does not tell the two apart, so neither does this model. */
  datatype Option<+T> = None | Some(value: T)

  /** `a ?? b`: the left operand whenever it is neither null nor undefined,
      even when it is falsy (an empty string, `false`). */
  function Coalesce<T>(a: Option<T>, b: T): (r: T)
    ensures a.Some? ==> r == a.value
    ensures a.None? ==> r == b
  {
    match a
    case Some(v) => v
    case None => b
  }

  /** Truthiness of an optional string: absent and empty are both falsy. */
  predicate Truthy(s: Option<string>) {
    s.Some? && s.value != ""
  }

  /** `??` and truthiness part ways exactly on the empty string: `??` keeps a
      present empty string, a truthiness test treats it as missing. */
  lemma CoalesceKeepsFalsyString(s: Option<string>, fallback: string)
    requires s.Some? && !Truthy(s)
    ensures Coalesce(s, fallback) == ""
  {
  }

  /** `xs.filter((x) => x != null)`: the present entries, in their original order. */
  function FilterNonNull<T(!new)>(xs: seq<Option<T>>): (r: seq<T>)
    ensures |r| <= |xs|
    ensures forall x :: x in r <==> Some(x) in xs
    decreases |xs|
  {
    if xs == [] then []
    else
      var init := xs[..|xs| - 1];
      assert xs == init + [xs[|xs| - 1]];
      match xs[|xs| - 1]
      case None => FilterNonNull(init)
      case Some(v) => FilterNonNull(init) + [v]
  }

  /** Every entry absent exactly when nothing survives the filter. */
  lemma FilterEmptyIffAllNull<T(!new)>(xs: seq<Option<T>>)
    ensures FilterNonNull(xs) == [] <==> forall i :: 0 <= i < |xs| ==> xs[i].None?
  {
    if FilterNonNull(xs) == [] {
      forall i | 0 <= i < |xs|
        ensures xs[i].None?
      {
        assert xs[i] in xs;
      }
    } else {
      var x := FilterNonNull(xs)[0];
      assert x in FilterNonNull(xs);
      var i :| 0 <= i < |xs| && xs[i] == Some(x);
      assert xs[i].Some?;
    }
  }

  /** The filter distributes over concatenation: it never moves an entry
      across a boundary, which is what "order is kept" means. */
  lemma {:induction false} FilterAppend<T(!new)>(a: seq<Option<T>>, b: seq<Option<T>>)
    ensures FilterNonNull(a + b) == FilterNonNull(a) + FilterNonNull(b)
    decreases |b|
  {
    if b == [] {
      assert a + b == a;
    } else {
      var b' := b[..|b| - 1];
      assert (a + b)[..|a + b| - 1] == a + b';
      assert (a + b)[|a + b| - 1] == b[|b| - 1];
      FilterAppend(a, b');
    }
  }

  /** The entry at a present index `i` lands in the output right after the
      survivors of the prefix before it. */
  lemma FilterAt<T(!new)>(xs: seq<Option<T>>, i: nat)
    requires i < |xs| && xs[i].Some?
    ensures |FilterNonNull(xs[..i])| < |FilterNonNull(xs)|
    ensures FilterNonNull(xs)[|FilterNonNull(xs[..i])|] == xs[i].value
  {
    assert xs == xs[..i] + [xs[i]] + xs[i + 1..];
    FilterAppend(xs[..i] + [xs[i]], xs[i + 1..]);
    FilterAppend(xs[..i], [xs[i]]);
    assert FilterNonNull([xs[i]]) == [xs[i].value] by {
      assert [xs[i]][..0] == [];
    }
  }

  /** Relative order: of two present entries, the earlier one keeps the
      earlier output position. */
  lemma FilterKeepsOrder<T(!new)>(xs: seq<Option<T>>, i: nat, j: nat)
    requires i < j < |xs| && xs[i].Some? && xs[j].Some?
    ensures |FilterNonNull(xs[..i])| < |FilterNonNull(xs[..j])|
  {
    assert xs[..j] == xs[..i + 1] + xs[i + 1..j];
    FilterAppend(xs[..i + 1], xs[i + 1..j]);
    assert xs[..i + 1][..i] == xs[..i];
    FilterAt(xs[..i + 1], i);
  }

  /** Wrapping every element as present and filtering gives the list back:
      the filter drops nothing that is there. */
  lemma {:induction false} FilterOfPresent<T(!new)>(ys: seq<T>)
    ensures FilterNonNull(seq(|ys|, i requires 0 <= i < |ys| => Some(ys[i]))) == ys
    decreases |ys|
  {
    var wrapped := seq(|ys|, i requires 0 <= i < |ys| => Some(ys[i]));
    if ys != [] {
      var ys' := ys[..|ys| - 1];
      assert wrapped[..|wrapped| - 1] == seq(|ys'|, i requires 0 <= i < |ys'| => Some(ys'[i]));
      FilterOfPresent(ys');
      assert ys == ys' + [ys[|ys| - 1]];
    }
  }

  /** The filter as a left-to-right pass, the way `Array.prototype.filter` runs. */
  method FilterNonNullPass<T(!new)>(xs: seq<Option<T>>) returns (out: seq<T>)
    ensures out == FilterNonNull(xs)
    ensures forall x :: x in out <==> Some(x) in xs
  {
    out := [];
    var i := 0;
    while i < |xs|
      invariant 0 <= i <= |xs|
      invariant out == FilterNonNull(xs[..i])
    {
      assert xs[..i + 1][..i] == xs[..i];
      if xs[i].Some? {
        out := out + [xs[i].value];
      }
      i := i + 1;
    }
    assert xs[..|xs|] == xs;
  }
}
